=== FILE: README.md ===
# Quora-pairs embedding benchmark: deduplication, ids and report order

This project models, in Dafny, the bookkeeping core of the Quora question-pairs
embedding benchmark (`applications/finetune-quora-embeddings/benchmark.py`):

- `get_unique_sentences` walks the test rows. It gives every question text an
  id, which is its rank among the distinct texts in order of first meeting,
  and writes that id into the caller's dictionary. It hands the distinct texts
  out in batches of `batch_size`.
- `extract_unique_sentences` turns every row into the ids of its two texts and
  a 0/1 duplicate label. A text without an id raises `KeyError`.
- The module-level loop builds the `EVALS` table. It has one entry named
  `"<metric> (<threshold>)"` for each threshold and each metric, thresholds
  outermost, followed by `"AUC"`.
- `sort_key` and `keys.sort(key=sort_key)` put the report's columns in order.
  A name with a parenthesised decimal number is ranked by that number, after
  the names without one, which are ranked by their text.

The modules are:

- `Wrappers` (`wrappers.dfy`): `Option` and `Result`.
- `Sequences` (`sequences.dfy`): first-occurrence deduplication (`Dedup`),
  numbering by position (`Positions`), cutting into batches (`Batches`) and
  flattening.
- `UniqueSentences` (`unique_sentences.dfy`): the dataset rows, the caller's
  dictionary as the class `IdMapping`, and the two functions as imperative
  methods. `GetUniqueSentences` is proved against the specification functions
  `UniqueSentences`, `SentenceIds` and `Batches`; `ExtractUniqueSentences` is
  proved against the mapping's contents.
- `SortKeys` (`sort_key.dfy`): the regular expression `\((\d+(\.\d+)?)\)`.
  It is modelled twice: once as the engine runs it (`MatchAt`, `Search`), and
  once as a positional description of what a match is (`TokenAt`,
  `TokenValue`). Lemmas show the two agree. This module also holds Python's
  tuple and string order, and `list.sort` as a stable reference insertion sort
  over any key function.
- `Evals` (`evals.dfy`): the thresholds and metric names, `itertools.product`,
  the f-string name, the `EVALS` loop as a method, and the column order the
  report ends up with.

Thresholds are held as whole numbers of tenths (`3` is `0.3`). `str` of such a
float is its whole part, a point and the tenths digit. The value
`float(match.group(1))` is taken as an exact rational.

## Model

| member | source | states |
|---|---|---|
| UniqueSentences.Sentences | applications/finetune-quora-embeddings/benchmark.py:56-57 | the loop meets two texts per row |
| UniqueSentences.SentencesAt | applications/finetune-quora-embeddings/benchmark.py:56-57 | row i's s1 is the (2i)-th text met and its s2 the next one, so s1 is handled before s2 |
| UniqueSentences.OccursInSentences | applications/finetune-quora-embeddings/benchmark.py:56-57 | a text is met by the loop exactly when it is the s1 or the s2 of some row |
| UniqueSentences.IdMapping.constructor | applications/finetune-quora-embeddings/benchmark.py:140 | the caller's `dict()` starts empty |
| UniqueSentences.NumberedStep | applications/finetune-quora-embeddings/benchmark.py:59-71 | one test-and-insert step keeps `seen` equal to the distinct texts so far, in first-occurrence order; a new text gets id `len(seen)` over the caller's earlier entries, and a seen text changes nothing |
| UniqueSentences.BatchedStep | applications/finetune-quora-embeddings/benchmark.py:62-75 | appending a new text, and yielding the batch when it reaches `batch_size`, keeps the invariant: yielded batches followed by the pending batch spell the distinct texts, yielded batches are full and the pending one is not |
| UniqueSentences.GetUniqueSentences | applications/finetune-quora-embeddings/benchmark.py:51-78 | the batches yielded are the distinct texts in first-occurrence order, cut every `batch_size` with the remainder last; the dictionary becomes its old contents overridden by the first-occurrence numbering |
| UniqueSentences.ExtractUniqueSentences | applications/finetune-quora-embeddings/benchmark.py:81-92 | it succeeds exactly when every row's two texts have an id; the three lists then hold, row by row, the id of s1, the id of s2 and 1/0 for duplicate; otherwise it fails on the first missing key, checking s1 before s2 |
| UniqueSentences.SentenceIdsBijection | applications/finetune-quora-embeddings/benchmark.py:59-71 | ids are given to exactly the texts that occur; they are 0 .. n-1 for n distinct texts, and no two texts share one |
| UniqueSentences.FirstTextId | applications/finetune-quora-embeddings/benchmark.py:59-61 | an s1 not met before gets the number of distinct texts met before its row |
| UniqueSentences.SecondTextId | applications/finetune-quora-embeddings/benchmark.py:68-70 | an s2 not met before and different from s1 gets that number, plus one when s1 was new too |
| UniqueSentences.RepeatedTextCount | applications/finetune-quora-embeddings/benchmark.py:59-71 | a row whose two texts are equal adds one distinct text if that text is new, otherwise none |
| UniqueSentences.IdOnFirstMeeting | applications/finetune-quora-embeddings/benchmark.py:59-71 | the three cases together: ids follow first meeting, s1 before s2, and equal texts in one row share one id |
| UniqueSentences.FlatBatchesFollowIds | applications/finetune-quora-embeddings/benchmark.py:142-151 | the batches concatenated list each distinct text once, and position k holds the text with id k, so embedding k belongs to the text numbered k |
| UniqueSentences.LookupAfterNumbering | applications/finetune-quora-embeddings/benchmark.py:140-155 | after the generator is exhausted, both texts of every row have an id, and the concatenated batches at that id hold the row's own text |
| Sequences.DedupElements | applications/finetune-quora-embeddings/benchmark.py:59-71 | the distinct texts are exactly the texts met |
| Sequences.DedupNoRepeats | applications/finetune-quora-embeddings/benchmark.py:59-62 | no text is kept twice |
| Sequences.DedupPrefix | applications/finetune-quora-embeddings/benchmark.py:56-75 | the texts kept after a prefix of the input are a prefix of those kept after all of it |
| Sequences.DedupFirstOccurrence | applications/finetune-quora-embeddings/benchmark.py:59-61 | a text met for the first time at position p is kept at position "number of distinct texts before p" |
| Sequences.DedupOrder | applications/finetune-quora-embeddings/benchmark.py:59-71 | kept texts are ordered by their first occurrence |
| Sequences.DedupDistinct | applications/finetune-quora-embeddings/benchmark.py:26-31 | a sequence without repeats is kept as it is |
| Sequences.DedupSnoc | applications/finetune-quora-embeddings/benchmark.py:59-62 | one more text is appended to the kept texts exactly when it was not kept yet |
| Sequences.PositionsSnoc | applications/finetune-quora-embeddings/benchmark.py:60-61 | numbering a new text gives it the next number and renumbers nothing |
| Sequences.PositionsBijection | applications/finetune-quora-embeddings/benchmark.py:60-61 | numbering a duplicate-free sequence gives each element its position, uses exactly 0 .. n-1 and never repeats a number |
| Sequences.FlattenBatches | applications/finetune-quora-embeddings/benchmark.py:62-78 | the batches concatenated give back the sequence that was cut |
| Sequences.BatchSizes | applications/finetune-quora-embeddings/benchmark.py:64-78 | no batch is empty; with a positive size every batch but the last is full and the last is at most full; with a size that is not positive there is at most one batch |
| Sequences.BatchCount | applications/finetune-quora-embeddings/benchmark.py:64-78 | with a positive size there are ceil(n / size) batches |
| Sequences.BatchesOfFull | applications/finetune-quora-embeddings/benchmark.py:73-78 | full batches followed by a shorter remainder are the batches of their concatenation, the remainder forming the last batch unless it is empty |
| SortKeys.DigitRunEnd | applications/finetune-quora-embeddings/benchmark.py:327 | greedy `\d+`: the run from i is all digits and stops at the end or at a non-digit |
| SortKeys.MatchAt | applications/finetune-quora-embeddings/benchmark.py:327 | an attempt at i that succeeds starts at i and ends inside the key |
| SortKeys.PointUnique | applications/finetune-quora-embeddings/benchmark.py:327 | a match with a fraction has exactly one point and no all-digit reading, so its value is determined |
| SortKeys.MatchAtWithPoint | applications/finetune-quora-embeddings/benchmark.py:327 | where `(digits.digits)` starts at i, the attempt at i returns that match and its value |
| SortKeys.MatchAtWithoutPoint | applications/finetune-quora-embeddings/benchmark.py:327 | where `(digits)` starts at i, the attempt at i returns that match and its value |
| SortKeys.MatchAtSound | applications/finetune-quora-embeddings/benchmark.py:327 | whatever the attempt at i returns is a whole match of the pattern, with the value of group 1 |
| SortKeys.MatchAtComplete | applications/finetune-quora-embeddings/benchmark.py:327 | every whole match starting at i is found by the attempt at i |
| SortKeys.Search | applications/finetune-quora-embeddings/benchmark.py:327 | `re.search` returns a match lying inside the key, at or after the start position |
| SortKeys.SortKeyOf | applications/finetune-quora-embeddings/benchmark.py:326-331 | `sort_key` itself, a definition: `SortKeyOfSpec` states that it is `(True, x)` with x the value of the leftmost match exactly when the pattern matches, and `(False, key)` otherwise |
| SortKeys.SearchLeftmost | applications/finetune-quora-embeddings/benchmark.py:327 | the search returns the leftmost match and its value, and returns nothing exactly when the pattern matches nowhere |
| SortKeys.SortKeyOfSpec | applications/finetune-quora-embeddings/benchmark.py:326-331 | the key is `(True, x)` exactly when the pattern matches somewhere, with x the value of the leftmost match; otherwise it is `(False, key)` |
| SortKeys.SortKeyOfFirstMatch | applications/finetune-quora-embeddings/benchmark.py:326-331 | a match at the first opening parenthesis decides the key |
| SortKeys.UnnumberedWithoutParenthesis | applications/finetune-quora-embeddings/benchmark.py:330-331 | a name without an opening parenthesis gets `(False, name)` |
| SortKeys.StrLess | applications/finetune-quora-embeddings/benchmark.py:347 | Python's `<` on strings, a definition: `StrLessIrreflexive`, `StrLessTransitive` and `StrLessTotal` state that it is a strict total order |
| SortKeys.StrLessIrreflexive | applications/finetune-quora-embeddings/benchmark.py:347 | string `<` is irreflexive |
| SortKeys.StrLessTransitive | applications/finetune-quora-embeddings/benchmark.py:347 | string `<` is transitive |
| SortKeys.StrLessTotal | applications/finetune-quora-embeddings/benchmark.py:347 | of two different strings one is smaller |
| SortKeys.KeyLess | applications/finetune-quora-embeddings/benchmark.py:329-331 | Python's `<` on the `(bool, x)` tuples, a definition: `KeyLessStrictTotal` states that it is a strict total order with `(False, _)` before `(True, _)` |
| SortKeys.KeyLessStrictTotal | applications/finetune-quora-embeddings/benchmark.py:329-331 | tuple `<` on the keys is a strict total order, with `(False, _)` before `(True, _)` |
| SortKeys.Insert | applications/finetune-quora-embeddings/benchmark.py:347 | one insertion step adds exactly the inserted element |
| SortKeys.SortByKey | applications/finetune-quora-embeddings/benchmark.py:347 | the sorted list is a permutation of the input |
| SortKeys.InsertSorted | applications/finetune-quora-embeddings/benchmark.py:347 | inserting into a list ordered by key leaves it ordered |
| SortKeys.InsertTied | applications/finetune-quora-embeddings/benchmark.py:347 | inserting puts the element at the front of its own key's ties and changes no other ties |
| SortKeys.SortByKeyCorrect | applications/finetune-quora-embeddings/benchmark.py:347 | `list.sort(key=...)` yields a list ordered by key, a permutation of the input, with equally ranked elements in their original order (stability) |
| SortKeys.SortSortedIdentity | applications/finetune-quora-embeddings/benchmark.py:347 | sorting a list already ordered by key changes nothing |
| SortKeys.SortLastSmallest | applications/finetune-quora-embeddings/benchmark.py:347 | an ordered list followed by an element ranked before all of it sorts to that element followed by the list |
| Evals.NatToString | applications/finetune-quora-embeddings/benchmark.py:28 | `str` of a natural number is a non-empty string of digits with no leading zero that spells the number |
| Evals.FormatTenths | applications/finetune-quora-embeddings/benchmark.py:28 | `str(threshold)` for a threshold of t tenths, a definition: `EvalNameLayout`, `EvalNameBelowOne` and `TokenValueTenths` state its layout and that it reads back as t / 10 |
| Evals.EvalName | applications/finetune-quora-embeddings/benchmark.py:28 | the f-string name, a definition: `EvalNameInjective` states that different pairs get different names and `SortKeyOfEvalName` that `sort_key` reads the threshold back from it |
| Evals.Product | applications/finetune-quora-embeddings/benchmark.py:27 | every pair of the product draws its threshold and its metric from the inputs |
| Evals.ProductLength | applications/finetune-quora-embeddings/benchmark.py:27 | the product has one pair per threshold and metric |
| Evals.ProductAt | applications/finetune-quora-embeddings/benchmark.py:27 | threshold i and metric j sit at position i * (number of metrics) + j, thresholds varying slowest |
| Evals.ProductMonotone | applications/finetune-quora-embeddings/benchmark.py:25-27 | with ascending thresholds, the thresholds along the product never decrease |
| Evals.ProductDistinct | applications/finetune-quora-embeddings/benchmark.py:25-27 | with ascending thresholds and distinct metrics, no pair repeats |
| Evals.EvalNameNotAuc | applications/finetune-quora-embeddings/benchmark.py:28-31 | no product name collides with "AUC" |
| Evals.AssignedStep | applications/finetune-quora-embeddings/benchmark.py:28 | a dictionary assignment appends a new key, and keeps the position of an existing one |
| Evals.AssignedLast | applications/finetune-quora-embeddings/benchmark.py:31 | the final assignment of "AUC" leaves the keys as the deduplicated names followed by "AUC" |
| Evals.BuildingStep | applications/finetune-quora-embeddings/benchmark.py:27-30 | each loop step keeps the invariant: the keys are the names assigned so far in order of first assignment, and each holds the metric at the threshold its name spells |
| Evals.BuildingLast | applications/finetune-quora-embeddings/benchmark.py:31 | after "AUC" is added, the table has the deduplicated names plus "AUC" as keys, "AUC" holds the ROC AUC scorer, and every other key holds the scorer its name spells |
| Evals.BuildEvals | applications/finetune-quora-embeddings/benchmark.py:26-31 | the keys of `EVALS` are the product names in first-assignment order followed by "AUC"; the keys and the stored entries agree; "AUC" holds the ROC AUC scorer and every other key holds the metric at the threshold its name spells |
| Evals.EvalNameLayout | applications/finetune-quora-embeddings/benchmark.py:28 | in `"<metric> (<t>)"` the opening parenthesis, the whole part, the point, the tenths digit and the closing parenthesis sit where the pattern expects them |
| Evals.TokenValueTenths | applications/finetune-quora-embeddings/benchmark.py:28 | the number that the pattern reads back from a formatted threshold is the threshold |
| Evals.SortKeyOfEvalName | applications/finetune-quora-embeddings/benchmark.py:326-331 | the sort key of `"<metric> (<t>)"` is `(True, t)` for a metric name without a parenthesis |
| Evals.TenthsValue | applications/finetune-quora-embeddings/benchmark.py:25 | a whole part and a tenths digit make t / 10 |
| Evals.EvalNameInjective | applications/finetune-quora-embeddings/benchmark.py:28 | different metric/threshold pairs get different names, for metric names without a parenthesis |
| Evals.ProductNamesSorted | applications/finetune-quora-embeddings/benchmark.py:346-347 | with ascending thresholds the product names are already ordered by `sort_key`, and the name of pair k is numbered by pair k's threshold |
| Evals.ProductNamesDistinct | applications/finetune-quora-embeddings/benchmark.py:27-28 | with ascending thresholds and distinct plain metric names no two product names collide, so no entry is overwritten |
| Evals.SortedEvalKeys | applications/finetune-quora-embeddings/benchmark.py:346-347 | the keys of the table are the product names then "AUC"; sorted with `sort_key` they become "AUC" then the product names in product order; there is one key per threshold and metric, plus "AUC" |
| Evals.EvalNameBelowOne | applications/finetune-quora-embeddings/benchmark.py:28 | the name of a metric at a threshold below one is `"<metric> (0.<d>)"` |
| Evals.ProductNamesOfPairs | applications/finetune-quora-embeddings/benchmark.py:25-28 | for the benchmark's thresholds and metrics the nine names are those of (0.3, accuracy), (0.3, precision), …, (0.7, recall) |
| Evals.NamesSpelled | applications/finetune-quora-embeddings/benchmark.py:28 | those nine names spelled out |
| Evals.ProductNamesOfConstants | applications/finetune-quora-embeddings/benchmark.py:20-30 | the loop assigns "accuracy (0.3)", "precision (0.3)", "recall (0.3)", then the same at 0.5 and at 0.7 |
| Evals.MetricNamesPlain | applications/finetune-quora-embeddings/benchmark.py:20-24 | the metric names are distinct and contain no parenthesis |
| Evals.ReportColumnOrder | applications/finetune-quora-embeddings/benchmark.py:346-347 | the table has those nine names then "AUC"; the report's columns are "AUC", then accuracy, precision and recall at 0.3, then at 0.5, then at 0.7 |

## Left out

- The benchmark functions (`benchmark_mteb_model`, `benchmark_openai`, `benchmark_cohere_roc`), `generate_dataset_split` and `main`'s remote calls are left out. They load models, call embedding services, compute cosine similarities and write files; none of that is bookkeeping this model can state. Only their use of the two functions is captured, by `LookupAfterNumbering` and `FlatBatchesFollowIds`.
- The rest of the repository is not part of this model: the other applications, `evals.threshold_decorator` and the scikit-learn metrics. A table entry records which metric and threshold it stands for (`Scorer`), not the function it computes.
- Output is left out: `json.dump` of the results, the `values` rows and the `tabulate`/`print` report. The model stops at the sorted key list that gives the report its column order.
- UniqueSentences.GetUniqueSentences: the generator is modelled as run to exhaustion. The model returns the whole list of batches and the final dictionary. It does not capture laziness, nor a caller that reads the dictionary between two yields. Every caller in the file consumes the generator fully before using the dictionary.
- UniqueSentences.GetUniqueSentences: the source runs two identical blocks per row, one for s1 and then one for s2. The model runs one block per text over the texts in that same order, so the behaviour is the same.
- UniqueSentences.GetUniqueSentences: a `batch_size` of zero or less never equals a batch's length, so nothing is yielded until the end. The model keeps this: everything goes into one final batch.
- UniqueSentences.GetUniqueSentences: the batch size is always a parameter. The default of 1000 in the signature is left out, because every caller in the file passes a size of its own.
- Row unpacking (`s1, s2 = row["questions"]["text"]`) is left out. A row is modelled as exactly two texts and a boolean label, so the `ValueError` for a list of another length, and a missing field, are not modelled.
- SortKeys.IsDigit: `\d` is taken to be the ASCII digits. Python's `re` also matches other Unicode decimal digits; those are left out.
- SortKeys.SortKeyOf: `float(...)` is taken as an exact rational. Binary floating-point rounding of long numerals is not modelled. It matters for two numbers that differ beyond double precision, which `float` makes equal. It also matters for numerals too large for a double (above about 1.8e308): `float` turns them all into `inf`, so they tie and the stable sort keeps their input order, while the model orders them by value.
- Evals.FormatTenths: thresholds are restricted to whole numbers of tenths, which covers 0.3, 0.5 and 0.7. Other floats, with more digits or with the exponent form of `str`, are not modelled.
- SortKeys.SortByKey: `list.sort` is Timsort in CPython. The model is a reference stable insertion sort. A stable sort under a strict total order on keys has only one possible result, and `SortByKeyCorrect` proves the ordering, permutation and stability properties.
- Evals.SortKeyOfEvalName: stated only for metric names without an opening parenthesis, which `MetricNamesPlain` shows holds for the benchmark's metrics. With a parenthesised number inside the metric name, `sort_key` would read that number instead.

=== FILE: evals.dfy ===
/**
 * The metric table of the benchmark: one entry named "<metric> (<threshold>)"
 * for every threshold and every metric, thresholds outermost, then "AUC";
 * and the column order the report derives from those names with `sort_key`.
 * Thresholds are held as whole numbers of tenths (3 stands for 0.3).
 */
module Evals {
  import opened Sequences
  import opened SortKeys

  /** THRESHOLDS, in tenths. */
  const Thresholds: seq<nat> := [3, 5, 7]

  /** The keys of METRICS, in the order the dictionary holds them. */
  const MetricNames: seq<string> := ["accuracy", "precision", "recall"]

  /** The name the table gives to the ROC AUC score. */
  const AucName: string := "AUC"

  function DigitChar(d: nat): (c: char)
    requires d < 10
    ensures IsDigit(c) && DigitValue(c) == d
  {
    ('0' as int + d) as char
  }

  /** `str(n)` for a natural number: its decimal digits, without leading zeros. */
  function NatToString(n: nat): (r: string)
    ensures |r| > 0 && AllDigits(r) && Numeral(r) == n
    ensures |r| > 1 ==> r[0] != '0'
  {
    if n < 10 then [DigitChar(n)]
    else
      var r := NatToString(n / 10) + [DigitChar(n % 10)];
      assert r[..|r| - 1] == NatToString(n / 10);
      r
  }

  /** `str(t / 10)` for a threshold of `t` tenths: the whole part, a point and the tenths digit. */
  function FormatTenths(t: nat): string {
    NatToString(t / 10) + "." + [DigitChar(t % 10)]
  }

  /** The f-string `f"{metric_name} ({threshold})"`. */
  function EvalName(metric: string, t: nat): string {
    metric + " (" + FormatTenths(t) + ")"
  }

  /** The pairs of one threshold with every metric, in metric order. */
  function Pairs(t: nat, ms: seq<string>): seq<(nat, string)> {
    seq(|ms|, j requires 0 <= j < |ms| => (t, ms[j]))
  }

  /** `itertools.product(THRESHOLDS, METRICS.keys())`: every pair, the threshold varying slowest. */
  function Product(ts: seq<nat>, ms: seq<string>): (r: seq<(nat, string)>)
    ensures forall k :: 0 <= k < |r| ==> r[k].0 in ts && r[k].1 in ms
  {
    if ts == [] then [] else Pairs(ts[0], ms) + Product(ts[1..], ms)
  }

  /** The product has one entry per threshold and metric. */
  lemma {:induction false} ProductLength(ts: seq<nat>, ms: seq<string>)
    ensures |Product(ts, ms)| == |ts| * |ms|
  {
    if ts != [] {
      ProductLength(ts[1..], ms);
      assert |ts| * |ms| == |ms| + (|ts| - 1) * |ms|;
    }
  }

  /** Threshold `i` and metric `j` form the pair at position `i * |ms| + j` of the product. */
  lemma {:induction false} ProductAt(ts: seq<nat>, ms: seq<string>, i: nat, j: nat)
    requires i < |ts| && j < |ms|
    ensures i * |ms| + j < |Product(ts, ms)| && Product(ts, ms)[i * |ms| + j] == (ts[i], ms[j])
  {
    if i > 0 {
      ProductAt(ts[1..], ms, i - 1, j);
      assert i * |ms| + j == |ms| + ((i - 1) * |ms| + j);
    }
  }

  /** The names the loop gives to a sequence of pairs. */
  function NamesOf(ps: seq<(nat, string)>): seq<string> {
    seq(|ps|, k requires 0 <= k < |ps| => EvalName(ps[k].1, ps[k].0))
  }

  function ProductNames(ts: seq<nat>, ms: seq<string>): seq<string> {
    NamesOf(Product(ts, ms))
  }

  /** What a table entry computes: a metric applied at a threshold, or the ROC AUC score. */
  datatype Scorer = AtThreshold(metric: string, tenths: nat) | RocAuc

  /** The EVALS dictionary: its keys in insertion order and the scorer stored under each. */
  datatype EvalTable = EvalTable(keys: seq<string>, scorers: map<string, Scorer>)

  /** An entry name of the product never collides with the AUC entry. */
  lemma EvalNameNotAuc(metric: string, t: nat)
    ensures EvalName(metric, t) != AucName
  {
    assert |EvalName(metric, t)| >= 6;
  }

  /** The scorer stored under `name` is the metric and threshold the name spells. */
  predicate NamedAfter(name: string, scorer: Scorer) {
    scorer.AtThreshold? && EvalName(scorer.metric, scorer.tenths) == name
  }

  /**
   * The dictionary after the first `k` assignments of `names`: the keys in
   * order of first assignment, and a value under exactly the names assigned.
   */
  ghost predicate Assigned<V>(names: seq<string>, k: nat, keys: seq<string>, scorers: map<string, V>)
    requires k <= |names|
  {
    && keys == Dedup(names[..k])
    && forall x :: x in scorers <==> x in names[..k]
  }

  /** One more assignment appends the name to the keys unless it is there already. */
  lemma AssignedStep<V>(names: seq<string>, k: nat, keys: seq<string>, scorers: map<string, V>, v: V)
    requires k < |names| && Assigned(names, k, keys, scorers)
    ensures Assigned(names, k + 1, if names[k] in scorers then keys else keys + [names[k]], scorers[names[k] := v])
  {
    assert names[..k + 1] == names[..k] + [names[k]];
    DedupSnoc(names[..k], names[k]);
    DedupElements(names[..k]);
  }

  /** The final assignment after all of `names`: the keys and the names with a value stay the same set. */
  lemma AssignedLast<V>(names: seq<string>, keys: seq<string>, scorers: map<string, V>, last: string, v: V)
    requires Assigned(names, |names|, keys, scorers)
    ensures var keys' := if last in scorers then keys else keys + [last];
            && keys' == Dedup(names + [last])
            && forall x :: x in scorers[last := v] <==> x in keys'
  {
    assert names[..|names|] == names;
    DedupSnoc(names, last);
    DedupElements(names);
    DedupElements(names + [last]);
  }

  /** The loop's state after `k` pairs: the assignments so far, each value the scorer its name spells. */
  ghost predicate Building(names: seq<string>, k: nat, keys: seq<string>, scorers: map<string, Scorer>)
    requires k <= |names|
  {
    Assigned(names, k, keys, scorers) && forall x :: x in scorers ==> NamedAfter(x, scorers[x])
  }

  /** Assigning the scorer of a metric at a threshold under its own name keeps the loop's state. */
  lemma BuildingStep(names: seq<string>, k: nat, keys: seq<string>, scorers: map<string, Scorer>, m: string, t: nat)
    requires k < |names| && names[k] == EvalName(m, t) && Building(names, k, keys, scorers)
    ensures Building(names, k + 1, if names[k] in scorers then keys else keys + [names[k]],
                     scorers[names[k] := AtThreshold(m, t)])
  {
    AssignedStep(names, k, keys, scorers, AtThreshold(m, t));
  }

  /** Adding the AUC entry after the loop: the keys of the finished table and what each holds. */
  lemma BuildingLast(names: seq<string>, keys: seq<string>, scorers: map<string, Scorer>, evals: EvalTable)
    requires Building(names, |names|, keys, scorers)
    requires evals.keys == if AucName in scorers then keys else keys + [AucName]
    requires evals.scorers == scorers[AucName := RocAuc]
    ensures evals.keys == Dedup(names + [AucName])
    ensures forall k :: k in evals.scorers <==> k in evals.keys
    ensures AucName in evals.scorers && evals.scorers[AucName] == RocAuc
    ensures forall k :: k in evals.scorers && k != AucName ==> NamedAfter(k, evals.scorers[k])
  {
    AssignedLast(names, keys, scorers, AucName, RocAuc);
  }

  /**
   * The module-level loop building EVALS, for the given thresholds and
   * metrics, then the "AUC" entry. A dictionary assignment to a key already
   * present replaces its value and keeps its position, so the keys are the
   * names in order of first assignment.
   */
  method BuildEvals(thresholds: seq<nat>, metrics: seq<string>) returns (evals: EvalTable)
    ensures evals.keys == Dedup(ProductNames(thresholds, metrics) + [AucName])
    ensures forall k :: k in evals.scorers <==> k in evals.keys
    ensures AucName in evals.scorers && evals.scorers[AucName] == RocAuc
    ensures forall k :: k in evals.scorers && k != AucName ==> NamedAfter(k, evals.scorers[k])
  {
    var pairs := Product(thresholds, metrics);
    ghost var names := ProductNames(thresholds, metrics);
    var keys: seq<string> := [];
    var scorers: map<string, Scorer> := map[];
    for k := 0 to |pairs|
      invariant Building(names, k, keys, scorers)
    {
      var t, m := pairs[k].0, pairs[k].1;
      var name := EvalName(m, t);
      assert names[k] == name;
      BuildingStep(names, k, keys, scorers, m, t);
      if name !in scorers {
        keys := keys + [name];
      }
      scorers := scorers[name := AtThreshold(m, t)];
    }
    ghost var loopKeys, loopScorers := keys, scorers;
    if AucName !in scorers {
      keys := keys + [AucName];
    }
    scorers := scorers[AucName := RocAuc];
    evals := EvalTable(keys, scorers);
    BuildingLast(names, loopKeys, loopScorers, evals);
  }

  /**
   * Where the parts of an entry name sit: the opening parenthesis right after
   * the metric and a space, the whole part, the point, the tenths digit and
   * the closing parenthesis at the end.
   */
  lemma EvalNameLayout(metric: string, t: nat)
    requires '(' !in metric
    ensures var s := EvalName(metric, t);
            var p := |metric| + 1;
            var pt := p + 1 + |NatToString(t / 10)|;
            && |s| == pt + 3
            && PointAt(s, p, pt, pt + 3)
            && s[p + 1..pt] == NatToString(t / 10)
            && s[pt + 1..pt + 2] == [DigitChar(t % 10)]
            && forall q :: 0 <= q < p ==> s[q] != '('
  {
    var s := EvalName(metric, t);
    var w := NatToString(t / 10);
    assert s == metric + [' ', '('] + w + ['.', DigitChar(t % 10), ')'];
    forall q | 0 <= q < |metric|
      ensures s[q] != '('
    {
      assert s[q] == metric[q];
    }
  }

  /** A match made of the whole part and the tenths digit of `t` has the value `t / 10`. */
  lemma TokenValueTenths(s: string, p: nat, pt: nat, t: nat)
    requires PointAt(s, p, pt, pt + 3)
    requires s[p + 1..pt] == NatToString(t / 10) && s[pt + 1..pt + 2] == [DigitChar(t % 10)]
    ensures TokenValue(s, p, pt + 3) == t as real / 10.0
  {
    PointUnique(s, p, pt, pt + 3);
    var c := DigitChar(t % 10);
    assert Numeral([c]) == t % 10 by {
      assert [c][..0] == [];
    }
    TenthsValue(t);
  }

  /**
   * Round trip through `sort_key`: the name of a metric taken at `t` tenths
   * sorts by the number `t / 10`, provided the metric name itself holds no
   * opening parenthesis.
   */
  lemma SortKeyOfEvalName(metric: string, t: nat)
    requires '(' !in metric
    ensures SortKeyOf(EvalName(metric, t)) == Numbered(t as real / 10.0)
  {
    var p := |metric| + 1;
    var pt := p + 1 + |NatToString(t / 10)|;
    EvalNameLayout(metric, t);
    TokenValueTenths(EvalName(metric, t), p, pt, t);
    SortKeyOfFirstMatch(EvalName(metric, t), p, pt + 3);
  }

  /** The whole part and the tenths digit of `t` tenths spell the number `t / 10`. */
  lemma TenthsValue(t: nat)
    ensures DecimalOf(t / 10, t % 10, 1) == t as real / 10.0
  {
    var w, f := t / 10, t % 10;
    assert Pow10(1) == 10;
    assert t == w * 10 + f;
    assert t as real == w as real * 10.0 + f as real;
  }

  /** Distinct metric names and thresholds give distinct entry names. */
  lemma EvalNameInjective(m1: string, t1: nat, m2: string, t2: nat)
    requires '(' !in m1 && '(' !in m2
    requires EvalName(m1, t1) == EvalName(m2, t2)
    ensures m1 == m2 && t1 == t2
  {
    SortKeyOfEvalName(m1, t1);
    SortKeyOfEvalName(m2, t2);
    var s := EvalName(m1, t1);
    assert s[..|m1|] == m1 && s[..|m2|] == m2;
  }

  /** With thresholds in increasing order, the thresholds along the product never decrease. */
  lemma {:induction false} ProductMonotone(ts: seq<nat>, ms: seq<string>)
    requires forall i, j :: 0 <= i < j < |ts| ==> ts[i] < ts[j]
    ensures forall a, b :: 0 <= a < b < |Product(ts, ms)| ==> Product(ts, ms)[a].0 <= Product(ts, ms)[b].0
  {
    if ts != [] {
      ProductMonotone(ts[1..], ms);
      var head := Pairs(ts[0], ms);
      var rest := Product(ts[1..], ms);
      assert Product(ts, ms) == head + rest;
      forall b | 0 <= b < |rest|
        ensures ts[0] < rest[b].0
      {
        var k :| 0 <= k < |ts[1..]| && ts[1..][k] == rest[b].0;
        assert ts[k + 1] == rest[b].0;
      }
    }
  }

  /** Distinct metrics and increasing thresholds give a product without repeated pairs. */
  lemma {:induction false} ProductDistinct(ts: seq<nat>, ms: seq<string>)
    requires forall i, j :: 0 <= i < j < |ts| ==> ts[i] < ts[j]
    requires Distinct(ms)
    ensures Distinct(Product(ts, ms))
  {
    if ts != [] {
      ProductDistinct(ts[1..], ms);
      ProductMonotone(ts, ms);
      var head := Pairs(ts[0], ms);
      var rest := Product(ts[1..], ms);
      assert Product(ts, ms) == head + rest;
      forall b | 0 <= b < |rest|
        ensures ts[0] < rest[b].0
      {
        var k :| 0 <= k < |ts[1..]| && ts[1..][k] == rest[b].0;
        assert ts[k + 1] == rest[b].0;
      }
    }
  }

  /** No metric name holds an opening parenthesis. */
  ghost predicate PlainNames(ms: seq<string>) {
    forall j :: 0 <= j < |ms| ==> '(' !in ms[j]
  }

  /** With increasing thresholds, the product names are already in `sort_key` order. */
  lemma ProductNamesSorted(ts: seq<nat>, ms: seq<string>)
    requires forall i, j :: 0 <= i < j < |ts| ==> ts[i] < ts[j]
    requires PlainNames(ms)
    ensures Sorted(ProductNames(ts, ms), SortKeyOf)
    ensures forall k :: 0 <= k < |ProductNames(ts, ms)| ==>
      SortKeyOf(ProductNames(ts, ms)[k]) == Numbered(Product(ts, ms)[k].0 as real / 10.0)
  {
    var ps := Product(ts, ms);
    var names := ProductNames(ts, ms);
    ProductMonotone(ts, ms);
    forall k | 0 <= k < |ps|
      ensures SortKeyOf(names[k]) == Numbered(ps[k].0 as real / 10.0)
    {
      var j :| 0 <= j < |ms| && ms[j] == ps[k].1;
      SortKeyOfEvalName(ps[k].1, ps[k].0);
    }
  }

  /** Under the same conditions the names are all different. */
  lemma ProductNamesDistinct(ts: seq<nat>, ms: seq<string>)
    requires forall i, j :: 0 <= i < j < |ts| ==> ts[i] < ts[j]
    requires Distinct(ms) && PlainNames(ms)
    ensures Distinct(ProductNames(ts, ms))
  {
    var ps := Product(ts, ms);
    var names := ProductNames(ts, ms);
    ProductDistinct(ts, ms);
    forall a, b | 0 <= a < b < |names|
      ensures names[a] != names[b]
    {
      var ja :| 0 <= ja < |ms| && ms[ja] == ps[a].1;
      var jb :| 0 <= jb < |ms| && ms[jb] == ps[b].1;
      if names[a] == names[b] {
        EvalNameInjective(ps[a].1, ps[a].0, ps[b].1, ps[b].0);
      }
    }
  }

  /**
   * The report's column order: the keys of the table sorted with `sort_key`
   * put "AUC" first and then keep the product order, thresholds ascending and
   * metrics in table order within a threshold.
   */
  lemma SortedEvalKeys(ts: seq<nat>, ms: seq<string>)
    requires forall i, j :: 0 <= i < j < |ts| ==> ts[i] < ts[j]
    requires Distinct(ms) && PlainNames(ms)
    ensures Dedup(ProductNames(ts, ms) + [AucName]) == ProductNames(ts, ms) + [AucName]
    ensures SortByKey(Dedup(ProductNames(ts, ms) + [AucName]), SortKeyOf) == [AucName] + ProductNames(ts, ms)
    ensures |Dedup(ProductNames(ts, ms) + [AucName])| == |ts| * |ms| + 1
  {
    var names := ProductNames(ts, ms);
    ProductLength(ts, ms);
    ProductNamesDistinct(ts, ms);
    ProductNamesSorted(ts, ms);
    forall k | 0 <= k < |names|
      ensures names[k] != AucName
    {
      var ps := Product(ts, ms);
      EvalNameNotAuc(ps[k].1, ps[k].0);
    }
    DedupDistinct(names + [AucName]);
    UnnumberedWithoutParenthesis(AucName);
    SortLastSmallest(names, AucName, SortKeyOf);
  }

  /** The name of a metric at a threshold below one. */
  lemma EvalNameBelowOne(metric: string, t: nat)
    requires t < 10
    ensures EvalName(metric, t) == metric + [' ', '(', '0', '.', DigitChar(t), ')']
  {
    assert NatToString(0) == ['0'];
  }

  /** The product names of the benchmark's thresholds and metrics, as names of pairs. */
  lemma ProductNamesOfPairs()
    ensures ProductNames(Thresholds, MetricNames) ==
      [ EvalName("accuracy", 3), EvalName("precision", 3), EvalName("recall", 3),
        EvalName("accuracy", 5), EvalName("precision", 5), EvalName("recall", 5),
        EvalName("accuracy", 7), EvalName("precision", 7), EvalName("recall", 7) ]
  {
    ProductLength(Thresholds, MetricNames);
    ProductAt(Thresholds, MetricNames, 0, 0);
    ProductAt(Thresholds, MetricNames, 0, 1);
    ProductAt(Thresholds, MetricNames, 0, 2);
    ProductAt(Thresholds, MetricNames, 1, 0);
    ProductAt(Thresholds, MetricNames, 1, 1);
    ProductAt(Thresholds, MetricNames, 1, 2);
    ProductAt(Thresholds, MetricNames, 2, 0);
    ProductAt(Thresholds, MetricNames, 2, 1);
    ProductAt(Thresholds, MetricNames, 2, 2);
  }

  /** Those nine names spelled out. */
  lemma NamesSpelled()
    ensures [ EvalName("accuracy", 3), EvalName("precision", 3), EvalName("recall", 3),
              EvalName("accuracy", 5), EvalName("precision", 5), EvalName("recall", 5),
              EvalName("accuracy", 7), EvalName("precision", 7), EvalName("recall", 7) ] ==
      [ "accuracy (0.3)", "precision (0.3)", "recall (0.3)",
        "accuracy (0.5)", "precision (0.5)", "recall (0.5)",
        "accuracy (0.7)", "precision (0.7)", "recall (0.7)" ]
  {
    assert EvalName("accuracy", 3) == "accuracy (0.3)" by {
      EvalNameBelowOne("accuracy", 3);
    }
    assert EvalName("precision", 3) == "precision (0.3)" by {
      EvalNameBelowOne("precision", 3);
    }
    assert EvalName("recall", 3) == "recall (0.3)" by {
      EvalNameBelowOne("recall", 3);
    }
    assert EvalName("accuracy", 5) == "accuracy (0.5)" by {
      EvalNameBelowOne("accuracy", 5);
    }
    assert EvalName("precision", 5) == "precision (0.5)" by {
      EvalNameBelowOne("precision", 5);
    }
    assert EvalName("recall", 5) == "recall (0.5)" by {
      EvalNameBelowOne("recall", 5);
    }
    assert EvalName("accuracy", 7) == "accuracy (0.7)" by {
      EvalNameBelowOne("accuracy", 7);
    }
    assert EvalName("precision", 7) == "precision (0.7)" by {
      EvalNameBelowOne("precision", 7);
    }
    assert EvalName("recall", 7) == "recall (0.7)" by {
      EvalNameBelowOne("recall", 7);
    }
  }

  /** The nine names the product loop assigns, in order. */
  lemma ProductNamesOfConstants()
    ensures ProductNames(Thresholds, MetricNames) ==
      [ "accuracy (0.3)", "precision (0.3)", "recall (0.3)",
        "accuracy (0.5)", "precision (0.5)", "recall (0.5)",
        "accuracy (0.7)", "precision (0.7)", "recall (0.7)" ]
  {
    ProductNamesOfPairs();
    NamesSpelled();
  }

  /** The AUC entry put after, or in front of, the nine product names. */
  lemma AucAround(names: seq<string>)
    requires names ==
      [ "accuracy (0.3)", "precision (0.3)", "recall (0.3)",
        "accuracy (0.5)", "precision (0.5)", "recall (0.5)",
        "accuracy (0.7)", "precision (0.7)", "recall (0.7)" ]
    ensures names + [AucName] ==
      [ "accuracy (0.3)", "precision (0.3)", "recall (0.3)",
        "accuracy (0.5)", "precision (0.5)", "recall (0.5)",
        "accuracy (0.7)", "precision (0.7)", "recall (0.7)", "AUC" ]
    ensures [AucName] + names ==
      [ "AUC", "accuracy (0.3)", "precision (0.3)", "recall (0.3)",
        "accuracy (0.5)", "precision (0.5)", "recall (0.5)",
        "accuracy (0.7)", "precision (0.7)", "recall (0.7)" ]
  {
  }

  /** The metric names are distinct and hold no parenthesis. */
  lemma MetricNamesPlain()
    ensures Distinct(MetricNames) && PlainNames(MetricNames)
  {
  }

  /**
   * The table the benchmark builds has these ten keys, "AUC" last, and the
   * report lists them as "AUC" followed by the three metrics at 0.3, at 0.5
   * and at 0.7.
   */
  lemma ReportColumnOrder()
    ensures Dedup(ProductNames(Thresholds, MetricNames) + [AucName]) ==
      [ "accuracy (0.3)", "precision (0.3)", "recall (0.3)",
        "accuracy (0.5)", "precision (0.5)", "recall (0.5)",
        "accuracy (0.7)", "precision (0.7)", "recall (0.7)", "AUC" ]
    ensures SortByKey(Dedup(ProductNames(Thresholds, MetricNames) + [AucName]), SortKeyOf) ==
      [ "AUC", "accuracy (0.3)", "precision (0.3)", "recall (0.3)",
        "accuracy (0.5)", "precision (0.5)", "recall (0.5)",
        "accuracy (0.7)", "precision (0.7)", "recall (0.7)" ]
  {
    var names := ProductNames(Thresholds, MetricNames);
    MetricNamesPlain();
    SortedEvalKeys(Thresholds, MetricNames);
    assert SortByKey(Dedup(names + [AucName]), SortKeyOf) == [AucName] + names;
    ProductNamesOfConstants();
    AucAround(names);
  }
}

=== FILE: sequences.dfy ===
/**
 * Sequence notions the benchmark script relies on: removing repeats while
 * keeping first occurrences, numbering the survivors by position, cutting a
 * sequence into fixed-size batches and flattening batches back.
 */
module Sequences {

  /** No element occurs twice in `s`. */
  predicate Distinct<T(==,!new)>(s: seq<T>) {
    forall i, j :: 0 <= i < j < |s| ==> s[i] != s[j]
  }

  /** Position of the first occurrence of `x` in `s`. */
  function IndexOf<T(==,!new)>(s: seq<T>, x: T): (i: nat)
    requires x in s
    ensures i < |s| && s[i] == x
    ensures forall j :: 0 <= j < i ==> s[j] != x
  {
    if s[0] == x then 0 else 1 + IndexOf(s[1..], x)
  }

  /** In a duplicate-free sequence every element sits at exactly one position. */
  lemma IndexOfDistinct<T(!new)>(s: seq<T>, k: nat)
    requires Distinct(s) && k < |s|
    ensures IndexOf(s, s[k]) == k
  {
  }

  /**
   * `xs` with every repeated element dropped: the survivors are the first
   * occurrences, in the order they are met.
   */
  function Dedup<T(==,!new)>(xs: seq<T>): (r: seq<T>)
    ensures |r| <= |xs|
  {
    if xs == [] then []
    else
      var d := Dedup(xs[..|xs| - 1]);
      if xs[|xs| - 1] in d then d else d + [xs[|xs| - 1]]
  }

  /** Dedup keeps exactly the elements it was given. */
  lemma {:induction false} DedupElements<T(!new)>(xs: seq<T>)
    ensures forall x :: x in Dedup(xs) <==> x in xs
  {
    if xs != [] {
      DedupElements(xs[..|xs| - 1]);
      assert xs == xs[..|xs| - 1] + [xs[|xs| - 1]];
    }
  }

  /** Dedup leaves no element twice. */
  lemma {:induction false} DedupNoRepeats<T(!new)>(xs: seq<T>)
    ensures Distinct(Dedup(xs))
  {
    if xs != [] {
      DedupNoRepeats(xs[..|xs| - 1]);
    }
  }

  /** Dedup only ever appends: the result for a prefix is a prefix of the result. */
  lemma {:induction false} DedupPrefix<T(!new)>(xs: seq<T>, k: nat)
    requires k <= |xs|
    ensures Dedup(xs[..k]) <= Dedup(xs)
    decreases |xs| - k
  {
    if k < |xs| {
      var init := xs[..|xs| - 1];
      assert init[..k] == xs[..k];
      DedupPrefix(init, k);
    } else {
      assert xs[..k] == xs;
    }
  }

  /**
   * An element met for the first time at position `p` lands at position
   * "number of distinct elements met before p" of the deduplicated sequence.
   */
  lemma {:induction false} DedupFirstOccurrence<T(!new)>(xs: seq<T>, p: nat)
    requires p < |xs| && xs[p] !in xs[..p]
    ensures xs[p] in Dedup(xs)
    ensures IndexOf(Dedup(xs), xs[p]) == |Dedup(xs[..p])|
  {
    var before := Dedup(xs[..p]);
    assert xs[..p + 1][..p] == xs[..p];
    DedupElements(xs[..p]);
    assert Dedup(xs[..p + 1]) == before + [xs[p]];
    DedupPrefix(xs, p + 1);
    var d := Dedup(xs);
    DedupNoRepeats(xs);
    assert d[|before|] == xs[p];
    IndexOfDistinct(d, |before|);
  }

  /** Dedup keeps first-occurrence order: earlier survivors were met earlier. */
  lemma DedupOrder<T(!new)>(xs: seq<T>, i: nat, j: nat)
    requires i < j < |Dedup(xs)|
    ensures Dedup(xs)[i] in xs && Dedup(xs)[j] in xs
    ensures IndexOf(xs, Dedup(xs)[i]) < IndexOf(xs, Dedup(xs)[j])
  {
    DedupElements(xs);
    var d := Dedup(xs);
    var p := IndexOf(xs, d[j]);
    DedupNoRepeats(xs);
    assert xs[p] !in xs[..p];
    DedupFirstOccurrence(xs, p);
    IndexOfDistinct(d, j);
    DedupPrefix(xs, p);
    var before := Dedup(xs[..p]);
    assert d[i] == before[i];
    DedupElements(xs[..p]);
    assert d[i] in xs[..p];
  }

  /** A sequence without repeats is its own deduplication. */
  lemma {:induction false} DedupDistinct<T(!new)>(xs: seq<T>)
    requires Distinct(xs)
    ensures Dedup(xs) == xs
  {
    if xs != [] {
      var init := xs[..|xs| - 1];
      DedupDistinct(init);
      assert xs[|xs| - 1] !in init;
      assert init + [xs[|xs| - 1]] == xs;
    }
  }

  /**
   * Each element of `order` mapped to the position of its first occurrence;
   * for a duplicate-free `order` this numbers the elements 0, 1, 2, ...
   */
  function Positions<T(==,!new)>(order: seq<T>): (m: map<T, int>)
  {
    map x | x in order :: IndexOf(order, x)
  }

  /** Appending a new element gives it the next number and renumbers nothing. */
  lemma PositionsSnoc<T(!new)>(order: seq<T>, x: T)
    requires x !in order
    ensures Positions(order + [x]) == Positions(order)[x := |order|]
  {
    var s := order + [x];
    var lhs := Positions(s);
    var rhs := Positions(order)[x := |order|];
    forall y | y in order
      ensures IndexOf(s, y) == IndexOf(order, y)
    {
      IndexOfPrefix(order, [x], y);
    }
    assert IndexOf(s, x) == |order| by {
      assert s[|order|] == x;
    }
    assert lhs.Keys == rhs.Keys;
    forall y | y in lhs
      ensures lhs[y] == rhs[y]
    {
    }
  }

  /** An element of `a` is found in `a + b` where it is found in `a`. */
  lemma {:induction false} IndexOfPrefix<T(!new)>(a: seq<T>, b: seq<T>, y: T)
    requires y in a
    ensures IndexOf(a + b, y) == IndexOf(a, y)
  {
    if a[0] != y {
      assert (a + b)[1..] == a[1..] + b;
      IndexOfPrefix(a[1..], b, y);
    }
  }

  /** Dedup of a sequence extended by one element: that element is appended only if new. */
  lemma DedupSnoc<T(!new)>(xs: seq<T>, x: T)
    ensures Dedup(xs + [x]) == if x in Dedup(xs) then Dedup(xs) else Dedup(xs) + [x]
  {
    assert (xs + [x])[..|xs|] == xs;
  }

  /** Overriding `base` with `m` and then setting `x` is overriding with `m` updated at `x`. */
  lemma OverrideUpdate<K, V>(base: map<K, V>, m: map<K, V>, x: K, v: V)
    ensures base + m[x := v] == (base + m)[x := v]
  {
  }

  /** The numbering of a duplicate-free sequence is a bijection onto 0 .. |order|-1. */
  lemma PositionsBijection<T(!new)>(order: seq<T>)
    requires Distinct(order)
    ensures forall v :: v in Positions(order).Values <==> 0 <= v < |order|
    ensures forall k :: 0 <= k < |order| ==> Positions(order)[order[k]] == k
    ensures forall x, y :: x in Positions(order) && y in Positions(order) && x != y ==>
              Positions(order)[x] != Positions(order)[y]
  {
    var m := Positions(order);
    forall k | 0 <= k < |order|
      ensures order[k] in m && m[order[k]] == k
    {
      IndexOfDistinct(order, k);
    }
    forall k | 0 <= k < |order|
      ensures k in m.Values
    {
      assert m[order[k]] == k;
    }
  }

  /** Concatenation of a sequence of sequences, in order. */
  function Flatten<T>(ss: seq<seq<T>>): seq<T> {
    if ss == [] then [] else ss[0] + Flatten(ss[1..])
  }

  lemma {:induction false} FlattenSnoc<T>(ss: seq<seq<T>>, s: seq<T>)
    ensures Flatten(ss + [s]) == Flatten(ss) + s
  {
    if ss != [] {
      assert (ss + [s])[1..] == ss[1..] + [s];
      FlattenSnoc(ss[1..], s);
    }
  }

  /**
   * `xs` cut into consecutive batches of `size` elements, the last one
   * possibly shorter; a `size` that is not positive never fills a batch, so
   * everything goes into one.
   */
  function Batches<T>(xs: seq<T>, size: int): seq<seq<T>>
    decreases |xs|
  {
    if xs == [] then []
    else if size <= 0 || |xs| <= size then [xs]
    else [xs[..size]] + Batches(xs[size..], size)
  }

  /** Flattening the batches gives back the sequence that was cut. */
  lemma {:induction false} FlattenBatches<T>(xs: seq<T>, size: int)
    ensures Flatten(Batches(xs, size)) == xs
    decreases |xs|
  {
    if xs != [] && size > 0 && |xs| > size {
      FlattenBatches(xs[size..], size);
      assert [xs[..size]] + Batches(xs[size..], size) == Batches(xs, size);
      assert xs[..size] + xs[size..] == xs;
    }
  }

  /**
   * No batch is empty; with a positive size every batch but the last has
   * exactly `size` elements and the last at most `size`; otherwise there is
   * at most one batch.
   */
  lemma {:induction false} BatchSizes<T>(xs: seq<T>, size: int)
    ensures forall k :: 0 <= k < |Batches(xs, size)| ==> |Batches(xs, size)[k]| > 0
    ensures size > 0 ==> forall k :: 0 <= k < |Batches(xs, size)| ==> |Batches(xs, size)[k]| <= size
    ensures size > 0 ==> forall k :: 0 <= k < |Batches(xs, size)| - 1 ==> |Batches(xs, size)[k]| == size
    ensures size <= 0 ==> |Batches(xs, size)| == if xs == [] then 0 else 1
    decreases |xs|
  {
    if xs != [] && size > 0 && |xs| > size {
      BatchSizes(xs[size..], size);
      assert Batches(xs, size) == [xs[..size]] + Batches(xs[size..], size);
    }
  }

  /** With a positive size there are ceil(|xs| / size) batches. */
  lemma {:induction false} BatchCount<T>(xs: seq<T>, size: int)
    requires size > 0
    ensures (|Batches(xs, size)| - 1) * size < |xs| <= |Batches(xs, size)| * size
    decreases |xs|
  {
    if xs != [] && |xs| > size {
      BatchCount(xs[size..], size);
      var n := |Batches(xs[size..], size)|;
      assert |Batches(xs, size)| == n + 1;
      assert (n + 1) * size == n * size + size;
    }
  }

  /**
   * Full batches followed by a short remainder are exactly the batches of
   * their concatenation (the remainder dropped when empty).
   */
  lemma {:induction false} BatchesOfFull<T>(full: seq<seq<T>>, tail: seq<T>, size: int)
    requires size > 0 && |tail| < size
    requires forall k :: 0 <= k < |full| ==> |full[k]| == size
    ensures Batches(Flatten(full) + tail, size) == full + (if tail == [] then [] else [tail])
  {
    if full != [] {
      var xs := Flatten(full) + tail;
      assert xs == full[0] + (Flatten(full[1..]) + tail);
      if |xs| <= size {
        assert tail == [];
        assert full == [full[0]];
        assert xs == full[0];
      } else {
        BatchesOfFull(full[1..], tail, size);
        assert xs[..size] == full[0];
        assert xs[size..] == Flatten(full[1..]) + tail;
        assert full == [full[0]] + full[1..];
        assert Batches(xs, size) == [xs[..size]] + Batches(xs[size..], size);
      }
    } else {
      assert Flatten(full) + tail == tail;
    }
  }
}

=== FILE: sort_key.dfy ===
/**
 * The ordering the benchmark report puts its columns in: `sort_key` looks for
 * the first parenthesised decimal number in a metric name (the regular
 * expression `\((\d+(\.\d+)?)\)` searched from the left) and ranks names
 * without one first, by their text, then names with one by that number; the
 * report sorts the metric names with Python's stable `list.sort` under that key.
 */
module SortKeys {
  import opened Wrappers

  predicate IsDigit(c: char) {
    '0' <= c <= '9'
  }

  predicate AllDigits(s: string) {
    forall i :: 0 <= i < |s| ==> IsDigit(s[i])
  }

  function DigitValue(c: char): (d: nat)
    requires IsDigit(c)
    ensures d < 10
  {
    (c as int) - ('0' as int)
  }

  /** The number a string of decimal digits spells, most significant digit first. */
  function Numeral(s: string): nat
    requires AllDigits(s)
  {
    if s == [] then 0 else Numeral(s[..|s| - 1]) * 10 + DigitValue(s[|s| - 1])
  }

  function Pow10(n: nat): (p: nat)
    ensures p > 0
  {
    if n == 0 then 1 else 10 * Pow10(n - 1)
  }

  /** The value of the decimal numeral with integer part `whole` and `places` fraction digits spelling `fraction`. */
  function DecimalOf(whole: nat, fraction: nat, places: nat): real {
    whole as real + fraction as real / Pow10(places) as real
  }

  /** Every character of `s` from position `a` up to `b` is a digit. */
  predicate DigitsIn(s: string, a: int, b: int) {
    0 <= a <= b <= |s| && forall q :: a <= q < b ==> IsDigit(s[q])
  }

  /** `s[p..e]` is an opening parenthesis, one or more digits and a closing parenthesis. */
  predicate WholeAt(s: string, p: int, e: int) {
    0 <= p && p + 1 < e - 1 && e <= |s| && s[p] == '(' && s[e - 1] == ')' && DigitsIn(s, p + 1, e - 1)
  }

  /**
   * `s[p..e]` is an opening parenthesis, one or more digits, a point at `m`,
   * one or more digits and a closing parenthesis.
   */
  predicate PointAt(s: string, p: int, m: int, e: int) {
    && 0 <= p && p + 1 < m && m + 1 < e - 1 && e <= |s|
    && s[p] == '(' && s[m] == '.' && s[e - 1] == ')'
    && DigitsIn(s, p + 1, m) && DigitsIn(s, m + 1, e - 1)
  }

  /** A whole match of the pattern `\((\d+(\.\d+)?)\)` occupies `s[p..e]`. */
  ghost predicate TokenAt(s: string, p: int, e: int) {
    WholeAt(s, p, e) || exists m :: PointAt(s, p, m, e)
  }

  /** The value `float(match.group(1))` of that match, taken as an exact rational. */
  ghost function TokenValue(s: string, p: int, e: int): real
    requires TokenAt(s, p, e)
  {
    if WholeAt(s, p, e) then Numeral(s[p + 1..e - 1]) as real
    else
      var m :| PointAt(s, p, m, e);
      DecimalOf(Numeral(s[p + 1..m]), Numeral(s[m + 1..e - 1]), e - m - 2)
  }

  /** A match holds at most one point, and then it has no all-digit reading. */
  lemma PointUnique(s: string, p: int, m: int, e: int)
    requires PointAt(s, p, m, e)
    ensures !WholeAt(s, p, e)
    ensures forall m' :: PointAt(s, p, m', e) ==> m' == m
    ensures TokenAt(s, p, e) && TokenValue(s, p, e) == DecimalOf(Numeral(s[p + 1..m]), Numeral(s[m + 1..e - 1]), e - m - 2)
  {
    assert !IsDigit(s[m]);
    forall m' | PointAt(s, p, m', e)
      ensures m' == m
    {
      assert !IsDigit(s[m']);
    }
  }

  /** A match of the pattern starts at `start`, ends before `end` and has value `float(group(1))`. */
  datatype Match = Match(start: nat, end: nat, value: real)

  /** The end of the longest run of digits of `s` starting at `i`. */
  function DigitRunEnd(s: string, i: nat): (j: nat)
    requires i <= |s|
    ensures i <= j <= |s| && forall q :: i <= q < j ==> IsDigit(s[q])
    ensures j == |s| || !IsDigit(s[j])
    decreases |s| - i
  {
    if i < |s| && IsDigit(s[i]) then DigitRunEnd(s, i + 1) else i
  }

  /** A digit run is determined by where it starts and where the digits stop. */
  lemma DigitRunEndAt(s: string, i: nat, j: nat)
    requires j < |s| && DigitsIn(s, i, j) && !IsDigit(s[j])
    ensures DigitRunEnd(s, i) == j
  {
  }

  /**
   * The pattern tried at position `i`, the way the regular-expression engine
   * does it: `(`, a greedy run of digits, then either `)` or a point, a second
   * greedy run of digits and `)`. Giving back digits never helps, because the
   * character after a shorter run is a digit, so no other attempt is made.
   */
  function MatchAt(s: string, i: nat): (r: Option<Match>)
    requires i <= |s|
    ensures r.Some? ==> r.value.start == i && i < r.value.end <= |s|
  {
    if i < |s| && s[i] == '(' then
      var j := DigitRunEnd(s, i + 1);
      if j == i + 1 || j == |s| then None
      else if s[j] == ')' then Some(Match(i, j + 1, Numeral(s[i + 1..j]) as real))
      else if s[j] == '.' then
        var k := DigitRunEnd(s, j + 1);
        if k == j + 1 || k == |s| || s[k] != ')' then None
        else Some(Match(i, k + 1, DecimalOf(Numeral(s[i + 1..j]), Numeral(s[j + 1..k]), k - j - 1)))
      else None
    else None
  }

  /** The engine's attempt at `i` when the digit runs stop at a point and then at a closing parenthesis. */
  lemma MatchAtWithPoint(s: string, i: nat, j: nat, e: nat)
    requires PointAt(s, i, j, e)
    ensures MatchAt(s, i) == Some(Match(i, e, TokenValue(s, i, e)))
  {
    DigitRunEndAt(s, i + 1, j);
    DigitRunEndAt(s, j + 1, e - 1);
    PointUnique(s, i, j, e);
  }

  /** The engine's attempt at `i` when the digit run stops at a closing parenthesis. */
  lemma MatchAtWithoutPoint(s: string, i: nat, e: nat)
    requires WholeAt(s, i, e)
    ensures MatchAt(s, i) == Some(Match(i, e, TokenValue(s, i, e)))
  {
    DigitRunEndAt(s, i + 1, e - 1);
  }

  /** Whatever the engine matches at `i` is a whole match of the pattern, with its value. */
  lemma MatchAtSound(s: string, i: nat)
    requires i <= |s| && MatchAt(s, i).Some?
    ensures TokenAt(s, i, MatchAt(s, i).value.end)
    ensures MatchAt(s, i).value.value == TokenValue(s, i, MatchAt(s, i).value.end)
  {
    var j := DigitRunEnd(s, i + 1);
    if s[j] == ')' {
      assert WholeAt(s, i, j + 1);
      MatchAtWithoutPoint(s, i, j + 1);
    } else {
      var k := DigitRunEnd(s, j + 1);
      assert PointAt(s, i, j, k + 1);
      MatchAtWithPoint(s, i, j, k + 1);
    }
  }

  /** Wherever a whole match of the pattern starts at `i`, the engine finds that very match. */
  lemma MatchAtComplete(s: string, i: nat, e: int)
    requires TokenAt(s, i, e)
    ensures MatchAt(s, i) == Some(Match(i, e, TokenValue(s, i, e)))
  {
    if WholeAt(s, i, e) {
      MatchAtWithoutPoint(s, i, e);
    } else {
      var m :| PointAt(s, i, m, e);
      MatchAtWithPoint(s, i, m, e);
    }
  }

  /** `re.search` from position `i`: the engine tried at each position in turn, the first success kept. */
  function Search(s: string, i: nat): (r: Option<Match>)
    requires i <= |s|
    ensures r.Some? ==> i <= r.value.start < r.value.end <= |s|
    decreases |s| - i
  {
    if i == |s| then None
    else if MatchAt(s, i).Some? then MatchAt(s, i)
    else Search(s, i + 1)
  }

  /**
   * The search finds the leftmost whole match of the pattern and its value,
   * and finds nothing exactly when there is no match anywhere.
   */
  lemma {:induction false} SearchLeftmost(s: string, i: nat)
    requires i <= |s|
    ensures Search(s, i).Some? ==>
              && TokenAt(s, Search(s, i).value.start, Search(s, i).value.end)
              && Search(s, i).value.value == TokenValue(s, Search(s, i).value.start, Search(s, i).value.end)
              && forall p, e :: i <= p < Search(s, i).value.start && TokenAt(s, p, e) ==> false
    ensures Search(s, i).None? ==> forall p, e :: i <= p && TokenAt(s, p, e) ==> false
    decreases |s| - i
  {
    if i < |s| {
      if MatchAt(s, i).Some? {
        MatchAtSound(s, i);
      } else {
        SearchLeftmost(s, i + 1);
        forall e | TokenAt(s, i, e)
          ensures false
        {
          MatchAtComplete(s, i, e);
        }
      }
    }
  }

  /** The value `sort_key` returns: `(False, key)` or `(True, number)`. */
  datatype SortKey = Unnumbered(text: string) | Numbered(number: real)

  /** `sort_key`: the number of the first parenthesised decimal in `key`, if there is one. */
  function SortKeyOf(key: string): SortKey {
    match Search(key, 0)
    case Some(m) => Numbered(m.value)
    case None => Unnumbered(key)
  }

  /**
   * A key is numbered exactly when the pattern matches somewhere in it, and
   * then by the value of the leftmost match; otherwise it is ranked by its text.
   */
  lemma SortKeyOfSpec(key: string)
    ensures SortKeyOf(key).Numbered? <==> exists p, e :: TokenAt(key, p, e)
    ensures SortKeyOf(key).Unnumbered? ==> SortKeyOf(key) == Unnumbered(key)
    ensures SortKeyOf(key).Numbered? ==>
              exists p, e :: && TokenAt(key, p, e)
                             && SortKeyOf(key).number == TokenValue(key, p, e)
                             && forall p', e' :: 0 <= p' < p && TokenAt(key, p', e') ==> false
  {
    SearchLeftmost(key, 0);
    var r := Search(key, 0);
    if r.Some? {
      assert TokenAt(key, r.value.start, r.value.end);
    }
  }

  /**
   * When a match starts at the first opening parenthesis of `key`, that match
   * decides the key.
   */
  lemma SortKeyOfFirstMatch(key: string, p: nat, e: int)
    requires TokenAt(key, p, e)
    requires forall q :: 0 <= q < p ==> key[q] != '('
    ensures SortKeyOf(key) == Numbered(TokenValue(key, p, e))
  {
    SearchLeftmost(key, 0);
    var m := Search(key, 0).value;
    assert key[m.start] == '(';
    MatchAtComplete(key, p, e);
    MatchAtComplete(key, p, m.end);
  }

  /** A name without an opening parenthesis is ranked by its text. */
  lemma UnnumberedWithoutParenthesis(key: string)
    requires '(' !in key
    ensures SortKeyOf(key) == Unnumbered(key)
  {
    SearchLeftmost(key, 0);
  }

  /** Python's `<` on strings: lexicographic by code point, a proper prefix first. */
  predicate StrLess(a: string, b: string) {
    if a == [] then b != []
    else b != [] && (a[0] < b[0] || (a[0] == b[0] && StrLess(a[1..], b[1..])))
  }

  lemma {:induction false} StrLessIrreflexive(a: string)
    ensures !StrLess(a, a)
  {
    if a != [] {
      StrLessIrreflexive(a[1..]);
    }
  }

  lemma {:induction false} StrLessTransitive(a: string, b: string, c: string)
    requires StrLess(a, b) && StrLess(b, c)
    ensures StrLess(a, c)
  {
    if a != [] && a[0] == b[0] && b[0] == c[0] {
      StrLessTransitive(a[1..], b[1..], c[1..]);
    }
  }

  lemma {:induction false} StrLessTotal(a: string, b: string)
    requires a != b
    ensures StrLess(a, b) || StrLess(b, a)
  {
    if a != [] && b != [] && a[0] == b[0] {
      assert a == [a[0]] + a[1..] && b == [b[0]] + b[1..];
      StrLessTotal(a[1..], b[1..]);
    }
  }

  /** Python's `<` on the key tuples: `False` before `True`, then the second component. */
  predicate KeyLess(a: SortKey, b: SortKey) {
    match (a, b)
    case (Unnumbered(x), Unnumbered(y)) => StrLess(x, y)
    case (Unnumbered(_), Numbered(_)) => true
    case (Numbered(_), Unnumbered(_)) => false
    case (Numbered(x), Numbered(y)) => x < y
  }

  /** The key order is a strict total order, so sorting under it is well defined. */
  lemma KeyLessStrictTotal(a: SortKey, b: SortKey, c: SortKey)
    ensures !KeyLess(a, a)
    ensures KeyLess(a, b) && KeyLess(b, c) ==> KeyLess(a, c)
    ensures a != b ==> KeyLess(a, b) || KeyLess(b, a)
    ensures a.Unnumbered? && b.Numbered? ==> KeyLess(a, b) && !KeyLess(b, a)
  {
    if a.Unnumbered? {
      StrLessIrreflexive(a.text);
      if b.Unnumbered? {
        if a != b {
          StrLessTotal(a.text, b.text);
        }
        if c.Unnumbered? && KeyLess(a, b) && KeyLess(b, c) {
          StrLessTransitive(a.text, b.text, c.text);
        }
      }
    }
  }

  /** No element is ranked strictly before one that precedes it. */
  ghost predicate Sorted(xs: seq<string>, key: string -> SortKey) {
    forall i, j :: 0 <= i < j < |xs| ==> !KeyLess(key(xs[j]), key(xs[i]))
  }

  /** `x` placed before the first element not ranked strictly before it. */
  function Insert(x: string, ys: seq<string>, key: string -> SortKey): (r: seq<string>)
    ensures multiset(r) == multiset(ys) + multiset{x}
  {
    if ys == [] || !KeyLess(key(ys[0]), key(x)) then [x] + ys
    else
      assert ys == [ys[0]] + ys[1..];
      [ys[0]] + Insert(x, ys[1..], key)
  }

  /**
   * `list.sort(key=key)`: a stable sort, here a reference insertion sort that
   * inserts each element in front of the equally ranked ones that follow it.
   */
  function SortByKey(xs: seq<string>, key: string -> SortKey): (r: seq<string>)
    ensures multiset(r) == multiset(xs)
  {
    if xs == [] then []
    else
      assert xs == [xs[0]] + xs[1..];
      Insert(xs[0], SortByKey(xs[1..], key), key)
  }

  /** The elements of `xs` whose key is `k`, in their order in `xs`. */
  function Tied(xs: seq<string>, key: string -> SortKey, k: SortKey): (r: seq<string>)
    ensures forall i :: 0 <= i < |r| ==> key(r[i]) == k
  {
    if xs == [] then []
    else (if key(xs[0]) == k then [xs[0]] else []) + Tied(xs[1..], key, k)
  }

  lemma {:induction false} InsertSorted(x: string, ys: seq<string>, key: string -> SortKey)
    requires Sorted(ys, key)
    ensures Sorted(Insert(x, ys, key), key)
  {
    if ys != [] && KeyLess(key(ys[0]), key(x)) {
      InsertSorted(x, ys[1..], key);
      var r := Insert(x, ys, key);
      var rest := Insert(x, ys[1..], key);
      assert r == [ys[0]] + rest;
      assert multiset(rest) == multiset(ys[1..]) + multiset{x};
      forall j | 0 < j < |r|
        ensures !KeyLess(key(r[j]), key(ys[0]))
      {
        assert r[j] in multiset(rest);
        if r[j] == x {
          KeyLessStrictTotal(key(x), key(ys[0]), key(x));
        } else {
          assert r[j] in multiset(ys[1..]);
          var q :| 0 <= q < |ys[1..]| && ys[1..][q] == r[j];
          assert ys[q + 1] == r[j];
        }
      }
    } else if ys != [] {
      forall j | 0 < j < |ys|
        ensures !KeyLess(key(ys[j]), key(x))
      {
        assert !KeyLess(key(ys[j]), key(ys[0]));
        KeyLessStrictTotal(key(ys[j]), key(x), key(ys[0]));
        KeyLessStrictTotal(key(ys[0]), key(x), key(ys[0]));
      }
    }
  }

  /** The ties of a sequence with one element in front. */
  lemma TiedCons(y: string, ys: seq<string>, key: string -> SortKey, k: SortKey)
    ensures Tied([y] + ys, key, k) == (if key(y) == k then [y] else []) + Tied(ys, key, k)
  {
    assert ([y] + ys)[1..] == ys;
  }

  /** Putting an element ranked strictly before `x` in front of both sides keeps `x`'s ties in front. */
  lemma TiedStep(x: string, y: string, rest: seq<string>, ys: seq<string>, key: string -> SortKey, k: SortKey)
    requires KeyLess(key(y), key(x))
    requires Tied(rest, key, k) == (if key(x) == k then [x] else []) + Tied(ys, key, k)
    ensures Tied([y] + rest, key, k) == (if key(x) == k then [x] else []) + Tied([y] + ys, key, k)
  {
    var tail := Tied(ys, key, k);
    TiedCons(y, rest, key, k);
    TiedCons(y, ys, key, k);
    if key(x) == k {
      assert key(y) != k by {
        KeyLessStrictTotal(key(x), key(x), key(x));
      }
      assert Tied(rest, key, k) == [x] + tail;
    } else if key(y) == k {
      assert Tied(rest, key, k) == tail;
    } else {
      assert Tied(rest, key, k) == tail;
    }
  }

  /** Inserting `x` adds it to the ties of its own key and changes no other ties. */
  lemma {:induction false} InsertTied(x: string, ys: seq<string>, key: string -> SortKey, k: SortKey)
    ensures Tied(Insert(x, ys, key), key, k) == (if key(x) == k then [x] else []) + Tied(ys, key, k)
  {
    if ys != [] && KeyLess(key(ys[0]), key(x)) {
      assert Insert(x, ys, key) == [ys[0]] + Insert(x, ys[1..], key);
      InsertTied(x, ys[1..], key, k);
      TiedStep(x, ys[0], Insert(x, ys[1..], key), ys[1..], key, k);
      assert [ys[0]] + ys[1..] == ys;
    } else {
      TiedCons(x, ys, key, k);
    }
  }

  /**
   * `list.sort` under a key: the result is ordered by the key, holds the same
   * elements, and equally ranked elements keep their original order.
   */
  lemma {:induction false} SortByKeyCorrect(xs: seq<string>, key: string -> SortKey)
    ensures Sorted(SortByKey(xs, key), key)
    ensures multiset(SortByKey(xs, key)) == multiset(xs)
    ensures forall k :: Tied(SortByKey(xs, key), key, k) == Tied(xs, key, k)
  {
    if xs != [] {
      SortByKeyCorrect(xs[1..], key);
      InsertSorted(xs[0], SortByKey(xs[1..], key), key);
      forall k
        ensures Tied(SortByKey(xs, key), key, k) == Tied(xs, key, k)
      {
        InsertTied(xs[0], SortByKey(xs[1..], key), key, k);
      }
    }
  }

  /** Sorting a sequence that is already in order changes nothing. */
  lemma {:induction false} SortSortedIdentity(xs: seq<string>, key: string -> SortKey)
    requires Sorted(xs, key)
    ensures SortByKey(xs, key) == xs
  {
    if xs != [] {
      assert Sorted(xs[1..], key);
      SortSortedIdentity(xs[1..], key);
      if |xs| > 1 {
        assert !KeyLess(key(xs[1]), key(xs[0]));
      }
      assert [xs[0]] + xs[1..] == xs;
    }
  }

  /** Sorting a sequence with a given first element inserts that element into the sorted rest. */
  lemma SortByKeyCons(x: string, ys: seq<string>, key: string -> SortKey)
    ensures SortByKey([x] + ys, key) == Insert(x, SortByKey(ys, key), key)
  {
    assert ([x] + ys)[1..] == ys;
  }

  /** `x` moves past a first element ranked strictly before it. */
  lemma InsertPast(x: string, y: string, ys: seq<string>, key: string -> SortKey)
    requires KeyLess(key(y), key(x))
    ensures Insert(x, [y] + ys, key) == [y] + Insert(x, ys, key)
  {
    assert ([y] + ys)[1..] == ys;
  }

  /** What an ordered sequence and an element ranked before all of it say about its tail. */
  lemma SortedTail(xs: seq<string>, a: string, key: string -> SortKey)
    requires xs != [] && Sorted(xs, key)
    requires forall i :: 0 <= i < |xs| ==> KeyLess(key(a), key(xs[i]))
    ensures Sorted(xs[1..], key)
    ensures forall i :: 0 <= i < |xs[1..]| ==> KeyLess(key(a), key(xs[1..][i]))
    ensures KeyLess(key(a), key(xs[0]))
    ensures |xs| > 1 ==> !KeyLess(key(xs[1]), key(xs[0]))
  {
  }

  /**
   * An element that comes last but is ranked strictly before every other
   * element of an ordered sequence moves to the front; the rest stays.
   */
  lemma {:induction false} SortLastSmallest(xs: seq<string>, a: string, key: string -> SortKey)
    requires Sorted(xs, key)
    requires forall i :: 0 <= i < |xs| ==> KeyLess(key(a), key(xs[i]))
    ensures SortByKey(xs + [a], key) == [a] + xs
  {
    if xs == [] {
      assert SortByKey([a], key) == Insert(a, [], key);
    } else {
      var x, rest := xs[0], xs[1..];
      SortedTail(xs, a, key);
      assert xs + [a] == [x] + (rest + [a]);
      SortByKeyCons(x, rest + [a], key);
      SortLastSmallest(rest, a, key);
      KeyLessStrictTotal(key(a), key(x), key(a));
      InsertPast(x, a, rest, key);
      assert Insert(x, rest, key) == xs by {
        assert [x] + rest == xs;
      }
    }
  }
}

=== FILE: unique_sentences.dfy ===
/**
 * Sentence de-duplication and id assignment of the Quora benchmark:
 * `get_unique_sentences` numbers every distinct question text in the order it
 * is first met and hands the new texts out in batches for embedding;
 * `extract_unique_sentences` turns each row back into its two ids and a 0/1
 * label. The embedding of the sentence with id k is the k-th embedding of the
 * flattened batches, which is what the callers rely on.
 */
module UniqueSentences {
  import opened Wrappers
  import opened Sequences

  /** One row of the test split: `questions.text` unpacked into its two texts, and `is_duplicate`. */
  datatype Row = Row(s1: string, s2: string, isDuplicate: bool)

  /** The texts of `rows` in the order the loop meets them: s1, then s2, row after row. */
  function Sentences(rows: seq<Row>): (r: seq<string>)
    ensures |r| == 2 * |rows|
  {
    if rows == [] then []
    else Sentences(rows[..|rows| - 1]) + [rows[|rows| - 1].s1, rows[|rows| - 1].s2]
  }

  /** The texts of the first `i` rows are the first `2 * i` texts. */
  lemma {:induction false} SentencesPrefix(rows: seq<Row>, i: nat)
    requires i <= |rows|
    ensures Sentences(rows[..i]) == Sentences(rows)[..2 * i]
    decreases |rows| - i
  {
    if i == |rows| {
      assert rows[..i] == rows;
    } else {
      var init := rows[..|rows| - 1];
      SentencesPrefix(init, i);
      assert init[..i] == rows[..i];
      assert Sentences(rows) == Sentences(init) + [rows[|rows| - 1].s1, rows[|rows| - 1].s2];
    }
  }

  /** Taking one more row appends its s1 and then its s2. */
  lemma SentencesSnoc(rows: seq<Row>, i: nat)
    requires i < |rows|
    ensures Sentences(rows[..i + 1]) == Sentences(rows[..i]) + [rows[i].s1] + [rows[i].s2]
  {
    assert rows[..i + 1][..i] == rows[..i];
  }

  /** The distinct texts of `rows` in first-occurrence order: the `seen` set, in the order it grew. */
  function UniqueSentences(rows: seq<Row>): seq<string> {
    Dedup(Sentences(rows))
  }

  /** The ids one call hands out: each distinct text mapped to its first-occurrence rank. */
  function SentenceIds(rows: seq<Row>): map<string, int> {
    Positions(UniqueSentences(rows))
  }

  /** The caller's `sentence_to_id_mapping` dictionary, which the call fills in place. */
  class IdMapping {
    var ids: map<string, int>

    /** `dict()`: a fresh, empty dictionary. */
    constructor ()
      ensures ids == map[]
    {
      ids := map[];
    }
  }

  /**
   * The numbering state after the first `k` texts: `order` lists the texts
   * seen so far in first-occurrence order, `seen` holds the same texts, and
   * `ids` is the caller's `base` with each of them set to its rank.
   */
  ghost predicate Numbered(texts: seq<string>, k: nat, order: seq<string>, seen: set<string>,
                           ids: map<string, int>, base: map<string, int>)
    requires k <= |texts|
  {
    && order == Dedup(texts[..k])
    && (forall s :: s in seen <==> s in order)
    && |seen| == |order|
    && ids == base + Positions(order)
  }

  /** Numbering a new text `|order|` is numbering `order + [s]` over the caller's `base`. */
  lemma NumberedIds(order: seq<string>, s: string, ids: map<string, int>, base: map<string, int>)
    requires s !in order && ids == base + Positions(order)
    ensures ids[s := |order|] == base + Positions(order + [s])
  {
    PositionsSnoc(order, s);
    OverrideUpdate(base, Positions(order), s, |order|);
  }

  /** Meeting a text already seen changes nothing. */
  lemma NumberedSeen(texts: seq<string>, k: nat, order: seq<string>, seen: set<string>,
                     ids: map<string, int>, base: map<string, int>)
    requires k < |texts| && Numbered(texts, k, order, seen, ids, base) && texts[k] in seen
    ensures Numbered(texts, k + 1, order, seen, ids, base)
  {
    assert texts[..k + 1] == texts[..k] + [texts[k]];
    DedupSnoc(texts[..k], texts[k]);
  }

  /** Meeting a new text appends it to the order and to `seen` and gives it id `|seen|`. */
  lemma NumberedNew(texts: seq<string>, k: nat, order: seq<string>, seen: set<string>,
                    ids: map<string, int>, base: map<string, int>)
    requires k < |texts| && Numbered(texts, k, order, seen, ids, base) && texts[k] !in seen
    ensures Numbered(texts, k + 1, order + [texts[k]], seen + {texts[k]}, ids[texts[k] := |seen|], base)
  {
    var s := texts[k];
    assert order + [s] == Dedup(texts[..k + 1]) by {
      assert texts[..k + 1] == texts[..k] + [s];
      DedupSnoc(texts[..k], s);
    }
    assert (forall x :: x in seen + {s} <==> x in order + [s]) && |seen + {s}| == |order + [s]| by {
      SeenStep(order, seen, s);
    }
    assert ids[s := |seen|] == base + Positions(order + [s]) by {
      NumberedIds(order, s, ids, base);
    }
  }

  /** Meeting the next text keeps the numbering state: a new text gets id `|seen|`. */
  lemma NumberedStep(texts: seq<string>, k: nat, order: seq<string>, seen: set<string>,
                     ids: map<string, int>, base: map<string, int>)
    requires k < |texts| && Numbered(texts, k, order, seen, ids, base)
    ensures var s := texts[k];
            if s in seen then Numbered(texts, k + 1, order, seen, ids, base)
            else Numbered(texts, k + 1, order + [s], seen + {s}, ids[s := |seen|], base)
  {
    if texts[k] in seen {
      NumberedSeen(texts, k, order, seen, ids, base);
    } else {
      NumberedNew(texts, k, order, seen, ids, base);
    }
  }

  /** Adding a new text to `seen` and to `order` keeps them the same texts, as many of each. */
  lemma SeenStep(order: seq<string>, seen: set<string>, s: string)
    requires (forall x :: x in seen <==> x in order) && |seen| == |order| && s !in seen
    ensures forall x :: x in seen + {s} <==> x in order + [s]
    ensures |seen + {s}| == |order + [s]|
  {
  }

  /**
   * The batching state: the batches handed out so far followed by the
   * pending batch spell out `order`; handed-out batches are full and the
   * pending one is not (with a positive size; otherwise nothing is handed out).
   */
  ghost predicate Batched(order: seq<string>, batches: seq<seq<string>>, batch: seq<string>, size: int) {
    && Flatten(batches) + batch == order
    && (size > 0 ==> |batch| < size && forall j :: 0 <= j < |batches| ==> |batches[j]| == size)
    && (size <= 0 ==> batches == [])
  }

  /** Adding a new text to the pending batch, and handing it out once full, keeps the batching state. */
  lemma BatchedStep(order: seq<string>, batches: seq<seq<string>>, batch: seq<string>, size: int, s: string)
    requires Batched(order, batches, batch, size)
    ensures |batch + [s]| == size ==> Batched(order + [s], batches + [batch + [s]], [], size)
    ensures |batch + [s]| != size ==> Batched(order + [s], batches, batch + [s], size)
  {
    assert Flatten(batches) + (batch + [s]) == order + [s];
    FlattenSnoc(batches, batch + [s]);
  }

  /**
   * `get_unique_sentences`, with its generator run to exhaustion: the list of
   * batches it yields, and the ids it writes into `mapping` on the way. The
   * two identical blocks the source runs for s1 and then s2 of each row are
   * one step here, taken for each text of `Sentences(testDataset)` in turn.
   */
  method GetUniqueSentences(testDataset: seq<Row>, mapping: IdMapping, batchSize: int)
    returns (batches: seq<seq<string>>)
    modifies mapping
    ensures batches == Batches(UniqueSentences(testDataset), batchSize)
    ensures mapping.ids == old(mapping.ids) + SentenceIds(testDataset)
  {
    var texts := Sentences(testDataset);
    var seen: set<string> := {};
    var batch: seq<string> := [];
    batches := [];
    ghost var order: seq<string> := [];
    for k := 0 to |texts|
      invariant Numbered(texts, k, order, seen, mapping.ids, old(mapping.ids))
      invariant Batched(order, batches, batch, batchSize)
    {
      var s := texts[k];
      NumberedStep(texts, k, order, seen, mapping.ids, old(mapping.ids));
      if s !in seen {
        BatchedStep(order, batches, batch, batchSize, s);
        mapping.ids := mapping.ids[s := |seen|];
        seen := seen + {s};
        batch := batch + [s];
        order := order + [s];

        if |batch| == batchSize {
          batches := batches + [batch];
          batch := [];
        }
      }
    }
    assert texts[..|texts|] == texts;

    ghost var full := batches;
    if batch != [] {
      batches := batches + [batch];
    }
    if batchSize > 0 {
      BatchesOfFull(full, batch, batchSize);
    } else {
      assert batch == order;
    }
  }

  /** The lists `extract_unique_sentences` returns: both ids of every row and its label. */
  datatype Columns = Columns(ids1: seq<int>, ids2: seq<int>, labels: seq<int>)

  /**
   * Row `i` is where the lookup first fails, and `key` is the text it fails
   * on (s1 is looked up before s2).
   */
  predicate KeyErrorAt(rows: seq<Row>, ids: map<string, int>, i: int, key: string)
    requires 0 <= i < |rows|
  {
    && (forall j :: 0 <= j < i ==> rows[j].s1 in ids && rows[j].s2 in ids)
    && key == (if rows[i].s1 !in ids then rows[i].s1 else rows[i].s2)
    && key !in ids
  }

  /**
   * `extract_unique_sentences`: the id of each row's two texts and its 0/1
   * label; a text without an id raises `KeyError`, here a `Failure`
   * carrying that text.
   */
  method ExtractUniqueSentences(testDataset: seq<Row>, mapping: IdMapping) returns (r: Result<Columns, string>)
    ensures r.Success? <==>
      forall i :: 0 <= i < |testDataset| ==> testDataset[i].s1 in mapping.ids && testDataset[i].s2 in mapping.ids
    ensures r.Success? ==>
      && |r.value.ids1| == |testDataset| && |r.value.ids2| == |testDataset| && |r.value.labels| == |testDataset|
      && forall i :: 0 <= i < |testDataset| ==>
           && r.value.ids1[i] == mapping.ids[testDataset[i].s1]
           && r.value.ids2[i] == mapping.ids[testDataset[i].s2]
           && r.value.labels[i] == (if testDataset[i].isDuplicate then 1 else 0)
    ensures r.Failure? ==> exists i :: 0 <= i < |testDataset| && KeyErrorAt(testDataset, mapping.ids, i, r.error)
  {
    var ids1: seq<int> := [];
    var ids2: seq<int> := [];
    var labels: seq<int> := [];
    for i := 0 to |testDataset|
      invariant |ids1| == i && |ids2| == i && |labels| == i
      invariant forall j :: 0 <= j < i ==>
        && testDataset[j].s1 in mapping.ids && testDataset[j].s2 in mapping.ids
        && ids1[j] == mapping.ids[testDataset[j].s1]
        && ids2[j] == mapping.ids[testDataset[j].s2]
        && labels[j] == (if testDataset[j].isDuplicate then 1 else 0)
    {
      var row := testDataset[i];
      if row.s1 !in mapping.ids {
        assert KeyErrorAt(testDataset, mapping.ids, i, row.s1);
        return Failure(row.s1);
      }
      ids1 := ids1 + [mapping.ids[row.s1]];
      if row.s2 !in mapping.ids {
        assert KeyErrorAt(testDataset, mapping.ids, i, row.s2);
        return Failure(row.s2);
      }
      ids2 := ids2 + [mapping.ids[row.s2]];
      labels := labels + [if row.isDuplicate then 1 else 0];
    }
    return Success(Columns(ids1, ids2, labels));
  }

  /** Row `i` contributes its s1 at position `2 * i` of the texts met, and its s2 right after. */
  lemma SentencesAt(rows: seq<Row>, i: nat)
    requires i < |rows|
    ensures Sentences(rows)[2 * i] == rows[i].s1 && Sentences(rows)[2 * i + 1] == rows[i].s2
  {
    SentencesPrefix(rows, i + 1);
    SentencesSnoc(rows, i);
  }

  /** A text occurs in `rows` as the first or second question of some row. */
  predicate Occurs(rows: seq<Row>, s: string) {
    exists i :: 0 <= i < |rows| && (rows[i].s1 == s || rows[i].s2 == s)
  }

  /** The texts the loop meets are exactly the questions of the rows. */
  lemma OccursInSentences(rows: seq<Row>, s: string)
    ensures s in Sentences(rows) <==> Occurs(rows, s)
  {
    var xs := Sentences(rows);
    if s in xs {
      var p :| 0 <= p < |xs| && xs[p] == s;
      SentencesAt(rows, p / 2);
    }
    if Occurs(rows, s) {
      var i :| 0 <= i < |rows| && (rows[i].s1 == s || rows[i].s2 == s);
      SentencesAt(rows, i);
    }
  }

  /**
   * Every text of every row gets an id, and nothing else does; the ids are
   * exactly 0 .. n-1 for n distinct texts, and distinct texts get distinct ids.
   */
  lemma SentenceIdsBijection(rows: seq<Row>)
    ensures forall s :: s in SentenceIds(rows) <==> Occurs(rows, s)
    ensures forall v :: v in SentenceIds(rows).Values <==> 0 <= v < |UniqueSentences(rows)|
    ensures forall s, t :: s in SentenceIds(rows) && t in SentenceIds(rows) && s != t ==>
              SentenceIds(rows)[s] != SentenceIds(rows)[t]
  {
    var xs := Sentences(rows);
    var order := UniqueSentences(rows);
    DedupElements(xs);
    DedupNoRepeats(xs);
    PositionsBijection(order);
    forall s
      ensures s in SentenceIds(rows) <==> Occurs(rows, s)
    {
      OccursInSentences(rows, s);
      if s in order {
        var k :| 0 <= k < |order| && order[k] == s;
        assert order[k] in SentenceIds(rows);
      }
    }
  }

  /** A row's first text, met for the first time, gets the number of distinct texts met before it. */
  lemma FirstTextId(rows: seq<Row>, i: nat)
    requires i < |rows| && !Occurs(rows[..i], rows[i].s1)
    ensures rows[i].s1 in SentenceIds(rows)
    ensures SentenceIds(rows)[rows[i].s1] == |UniqueSentences(rows[..i])|
  {
    SentencesPrefix(rows, i);
    SentencesAt(rows, i);
    OccursInSentences(rows[..i], rows[i].s1);
    DedupFirstOccurrence(Sentences(rows), 2 * i);
  }

  /**
   * A row's second text, met for the first time and different from the first,
   * comes right after it: one more id when the first text was new too.
   */
  lemma SecondTextId(rows: seq<Row>, i: nat)
    requires i < |rows| && !Occurs(rows[..i], rows[i].s2) && rows[i].s2 != rows[i].s1
    ensures rows[i].s2 in SentenceIds(rows)
    ensures SentenceIds(rows)[rows[i].s2] ==
      |UniqueSentences(rows[..i])| + (if Occurs(rows[..i], rows[i].s1) then 0 else 1)
  {
    var xs := Sentences(rows);
    var s1, s2 := rows[i].s1, rows[i].s2;
    var met := Sentences(rows[..i]);
    assert xs[..2 * i + 1] == met + [s1] by {
      SentencesPrefix(rows, i + 1);
      SentencesSnoc(rows, i);
      assert xs[..2 * i + 1] == xs[..2 * i + 2][..2 * i + 1];
    }
    assert xs[2 * i + 1] == s2 by {
      SentencesAt(rows, i);
    }
    assert s2 !in met by {
      OccursInSentences(rows[..i], s2);
    }
    DedupFirstOccurrence(xs, 2 * i + 1);
    assert |Dedup(met + [s1])| == |Dedup(met)| + (if Occurs(rows[..i], s1) then 0 else 1) by {
      OccursInSentences(rows[..i], s1);
      DedupElements(met);
      DedupSnoc(met, s1);
    }
  }

  /** A row whose two texts are equal adds at most that one text to the distinct texts. */
  lemma RepeatedTextCount(rows: seq<Row>, i: nat)
    requires i < |rows| && rows[i].s2 == rows[i].s1
    ensures |UniqueSentences(rows[..i + 1])| ==
      |UniqueSentences(rows[..i])| + (if Occurs(rows[..i], rows[i].s1) then 0 else 1)
  {
    var s1 := rows[i].s1;
    var met := Sentences(rows[..i]);
    SentencesSnoc(rows, i);
    OccursInSentences(rows[..i], s1);
    DedupElements(met);
    DedupSnoc(met, s1);
    DedupElements(met + [s1]);
    DedupSnoc(met + [s1], s1);
  }

  /**
   * Ids follow first occurrence: a text met for the first time in row `i`
   * gets the number of distinct texts met before it (`len(seen)` at that
   * moment), s1 being met before s2; a row whose two texts are equal takes
   * only one id.
   */
  lemma IdOnFirstMeeting(rows: seq<Row>, i: nat)
    requires i < |rows|
    ensures var before := |UniqueSentences(rows[..i])|;
            var s1, s2 := rows[i].s1, rows[i].s2;
            var s1New := !Occurs(rows[..i], s1);
            && (s1New ==> s1 in SentenceIds(rows) && SentenceIds(rows)[s1] == before)
            && (!Occurs(rows[..i], s2) && s2 != s1 ==>
                  s2 in SentenceIds(rows) && SentenceIds(rows)[s2] == before + (if s1New then 1 else 0))
            && (s2 == s1 ==> |UniqueSentences(rows[..i + 1])| == before + (if s1New then 1 else 0))
  {
    var s1, s2 := rows[i].s1, rows[i].s2;
    if !Occurs(rows[..i], s1) {
      FirstTextId(rows, i);
    }
    if !Occurs(rows[..i], s2) && s2 != s1 {
      SecondTextId(rows, i);
    }
    if s2 == s1 {
      RepeatedTextCount(rows, i);
    }
  }

  /**
   * The flattened batches list every distinct text exactly once, and the
   * text with id k sits at position k: the k-th embedding is the embedding of
   * the text numbered k.
   */
  lemma FlatBatchesFollowIds(rows: seq<Row>, batchSize: int)
    ensures var flat := Flatten(Batches(UniqueSentences(rows), batchSize));
            && Distinct(flat)
            && (forall s :: s in SentenceIds(rows) ==>
                  0 <= SentenceIds(rows)[s] < |flat| && flat[SentenceIds(rows)[s]] == s)
            && (forall k :: 0 <= k < |flat| ==> flat[k] in SentenceIds(rows) && SentenceIds(rows)[flat[k]] == k)
  {
    var order := UniqueSentences(rows);
    FlattenBatches(order, batchSize);
    DedupNoRepeats(Sentences(rows));
    PositionsBijection(order);
  }

  /**
   * What the benchmarks do end to end: after the generator has been
   * exhausted into `mapping` (whatever it held before), every row's two texts
   * have ids, and looking an id up in the flattened batches gives back the
   * row's own text.
   */
  lemma LookupAfterNumbering(rows: seq<Row>, initial: map<string, int>, batchSize: int)
    ensures var ids := initial + SentenceIds(rows);
            var flat := Flatten(Batches(UniqueSentences(rows), batchSize));
            forall i :: 0 <= i < |rows| ==>
              && rows[i].s1 in ids && rows[i].s2 in ids
              && 0 <= ids[rows[i].s1] < |flat| && flat[ids[rows[i].s1]] == rows[i].s1
              && 0 <= ids[rows[i].s2] < |flat| && flat[ids[rows[i].s2]] == rows[i].s2
  {
    var m := SentenceIds(rows);
    SentenceIdsBijection(rows);
    FlatBatchesFollowIds(rows, batchSize);
    forall i | 0 <= i < |rows|
      ensures rows[i].s1 in m && rows[i].s2 in m
    {
      assert Occurs(rows, rows[i].s1) && Occurs(rows, rows[i].s2);
    }
  }
}

=== FILE: wrappers.dfy ===
/** Failure-carrying wrappers shared by the other modules. */
module Wrappers {

  datatype Option<+T> = None | Some(value: T)

  /** The outcome of an operation that may raise: its value, or the error it raises. */
  datatype Result<+T, +E> = Success(value: T) | Failure(error: E)
}
